=== FILE: README.md ===
# Client session lifecycle — a Dafny model

This project models the client-side session handling of a Nuxt front end:

- the **session store** (`stores/auth.ts`): an in-memory `token`, `user` and
  `usersList`, mirrored into two browser storage keys, `auth_token` and
  `auth_user`, with the operations `isAuthenticated`, `login`, `logout`,
  `loadToken` and `fetchUsersList`;
- the **route guard** (`middleware/auth.glocal.ts`): a restore from
  storage on the client when the store has no token, then a redirect to
  `/login` or `/dashboard` or no redirect;
- the **session-expiry interceptor** (`plugins/axios.client.ts`): replies that
  signal "unauthorized" open one dialog guarded by the `isSessionExpiredShow`
  latch; acknowledging it clears storage, resets the latch and reloads the
  browser on `/login`.

Every operation is a pure function. The network replies (token exchange,
users list, intercepted API replies), the storage contents and whether a
browser window exists are explicit inputs; the store, storage and latch are
immutable records returned by each transition. `App` composes the three parts
into an event-driven client and proves an invariant of every reachable state.

Files: `base.dfy` (nullable strings, JavaScript truthiness, the two routes),
`auth_store.dfy`, `route_guard.dfy`, `session_expiry.dfy`, `app.dfy`.

Two facts about the code that shape the model:

- `isAuthenticated` is `!!token` alone (stores/auth.ts:12); the user plays no
  part. In every state reachable from a freshly loaded client whose storage
  holds both keys or neither, a signed-in store nevertheless has a user
  (`App.SignedInImpliesUser`). Storage holding a token without a user lets the
  restore install the token alone (stores/auth.ts:87).
- The token exchange's HTTP status is never checked (stores/auth.ts:25-41); a
  reply of any status whose JSON has a truthy `access_token` signs in.

`!!token` treats an empty string as absent. A token whose string form is empty
(an `access_token` of `[]`) is installed and written to storage by `login`,
but `loadToken` never reads it back (`AuthStore.EmptyTokenIsNotRestored`): the
exported `token` reads `""` after such a login and `null` after the restore.
None of the three files tells the two apart, since each tests the token only
for truthiness, so whether the store counts as signed in agrees on both sides.

## Model

| member | source | states |
|---|---|---|
| AuthStore.IsAuthenticated | stores/auth.ts:12 | signed in exactly when the token is neither null nor empty; the user is never consulted |
| AuthStore.FetchUsersList | stores/auth.ts:92-117 | without a token nothing changes; token and user never change; the list changes only to the data of an ok reply, and any failure leaves it as it was |
| AuthStore.Login | stores/auth.ts:15-58 | throws exactly when the exchange fails or yields no truthy access token, and then leaves store and storage untouched; on success installs the token and a name-only user, with a window storage holds exactly those two, and the users list becomes the fetched data when the new token is non-empty and the fetch is ok, otherwise keeps its previous value |
| AuthStore.Logout | stores/auth.ts:61-79 | the store ends empty and signed out, both keys are gone when a window exists, storage is untouched without one, and the route pushed is `/login` |
| AuthStore.LoadToken | stores/auth.ts:82-89 | no window changes nothing; the token is replaced only by a present non-empty saved token and the user only by a present saved user, otherwise each keeps its prior value; the users list is untouched |
| AuthStore.LoginIndependentOfUsersFetch | stores/auth.ts:41-57 | the users-list outcome cannot change whether login throws, nor the token, user or storage it leaves |
| AuthStore.LogoutIdempotent | stores/auth.ts:61-69 | logging out twice ends in the same state as logging out once |
| AuthStore.LoadTokenIdempotent | stores/auth.ts:82-89 | restoring twice from the same storage ends where restoring once does |
| AuthStore.LoginThenLoadTokenRestores | stores/auth.ts:41-88 | after a successful login with a window and a non-empty token, restoring a fresh store from the written storage gives back the same token and user, signed in |
| AuthStore.EmptyTokenIsNotRestored | stores/auth.ts:87 | an empty token string is written by login but not read back by the restore, while the signed-in flag agrees on both sides |
| RouteGuard.Decide | middleware/auth.glocal.ts:12-18 | redirects to `/login` exactly when there is no token and the target is not `/login`, to `/dashboard` exactly when there is a token and the target is `/login`, lets every other case through, and never redirects to the target itself |
| RouteGuard.Guard | middleware/auth.glocal.ts:4-19 | a restore happens only on the client and only without a token, and the verdict is taken on the token after that restore |
| RouteGuard.RedirectSettles | middleware/auth.glocal.ts:12-18 | a redirect target is always a page the same token lets through, so no redirect chain or loop arises |
| RouteGuard.GuardKeepsExistingToken | middleware/auth.glocal.ts:8-10 | a store that already holds a token is never changed by the guard, and only `/login` is redirected away |
| RouteGuard.SavedTokenAdmitsFirstNavigation | middleware/auth.glocal.ts:8-14 | on a fresh client store, a saved token is installed before the decision, so a protected page is reached without a redirect |
| RouteGuard.ServerThenClientReload | middleware/auth.glocal.ts:8-18 | with a saved token, a server run sends a protected path to `/login` and the following client run sends `/login` to `/dashboard`, so the requested path is lost |
| RouteGuard.ServerSideIgnoresStorage | middleware/auth.glocal.ts:8-14 | without a window no restore happens and a fresh store is sent to `/login` from any protected page |
| SessionExpiry.HandleSessionExpired | plugins/axios.client.ts:29-31 | the latch ends set; a set latch swallows the trigger; a clear one opens exactly one more dialog |
| SessionExpiry.OnResponse | plugins/axios.client.ts:11-18 | a payload with code 401 triggers the handler and is rejected as session expired; any other reply is passed through unchanged and leaves the latch alone |
| SessionExpiry.OnError | plugins/axios.client.ts:19-25 | every error is rejected again as it came; only a reply status of 401 triggers the handler |
| SessionExpiry.Intercept | plugins/axios.client.ts:10-26 | both unauthorized signals reach the same handler and are never resolved; other replies leave the latch alone |
| SessionExpiry.ShownLatchIgnoresReplies | plugins/axios.client.ts:30 | while a dialog is open, no sequence of replies changes the latch or opens a dialog |
| SessionExpiry.OneDialogPerBurst | plugins/axios.client.ts:29-31 | from a clear latch any sequence of replies opens exactly one dialog when it holds an unauthorized reply and none otherwise |
| SessionExpiry.Acknowledge | plugins/axios.client.ts:42-50 | both storage keys are removed, the latch is clear, no dialog count is lost and the browser is sent to `/login` |
| SessionExpiry.NextTriggerAfterAcknowledgeOpensDialog | plugins/axios.client.ts:30-47 | the latch is reusable: the first unauthorized reply after an acknowledgment opens a new dialog |
| App.NavigateTo | middleware/auth.glocal.ts:4-19 | the store becomes what the guard restored and the client lands on the redirect target, or on the requested path when there is none; that route is one the guard lets through, a second guard run there changes nothing, storage and latch are untouched and a signed-in store is unchanged |
| App.LoadTokenKeepsCoherence | stores/auth.ts:82-89 | restoring a store that has a user whenever it is signed in, from storage holding both keys or neither, never yields a signed-in store without a user |
| App.StepKeepsInvariant | stores/auth.ts:41-69 | each event keeps "signed in implies a user" and "storage holds both keys or neither" |
| App.RunKeepsInvariant | stores/auth.ts:41-88 | every sequence of events from a coherent client keeps both invariants |
| App.SignedInImpliesUser | stores/auth.ts:12-88 | in every state reachable from a freshly loaded client whose storage holds both keys or neither, a signed-in store has a user and storage never holds one key without the other |
| App.Step | plugins/axios.client.ts:5-55 | a navigation is the guarded navigation of `App.NavigateTo` (middleware/auth.glocal.ts:4-19); a failed sign-in changes nothing; a successful one installs the name-only user and signs in exactly when the token is non-empty; sign-out empties the store and lands on `/login`; replies touch only the latch, and only an unauthorized one can set it; acknowledging an open dialog on the client signs out, clears storage and lands on `/login`; without a window, where the client-only plugin is not installed, replies and acknowledgments change nothing |
| App.AcknowledgeSignsOut | plugins/axios.client.ts:42-50 | acknowledging an open dialog on the client leaves it signed out, with cleared storage, on `/login`, with the latch ready again |

## Left out

- HTTP transport, URLs, headers and form encoding: only the outcome of each
  request (rejected, status, decoded body) is an input.
- `JSON.stringify`/`JSON.parse` of the saved user: storage entries are already
  decoded records, so a saved user that fails to parse (an exception in the
  code) is not modelled.
- The users list's elements are opaque values, and a reply body that is not an
  array is not distinguished.
- `String(access_token)` is taken as given in the exchange outcome; values whose
  conversion throws are not modelled.
- Console logging, the dialog's rendering and texts, and the exception that
  `router.push` may throw and that `logout` swallows: only the navigation
  target is an output.
- The hard reload after acknowledgment is modelled as an empty store followed
  by a guarded navigation to `/login`; the browser reload itself is not.
- Interleaving at `await` points (for instance the interceptor clearing storage
  during `login`): each operation runs to completion in the model.
- An acknowledgment event when no dialog is open is a no-op in `App.Step`, since the
  callback exists only while a dialog is shown.
- `nuxt.config.ts`: build configuration with no behaviour.
- Server-side rendering is on by default in this configuration, yet each
  modelled run is either all server (`client` false) or all client; a page
  load that runs the guard on the server and then on the client is not
  composed into one run. On such a reload of a protected page with a saved
  token, the server run redirects to `/login` and the client run then sends
  `/login` on to `/dashboard`, so the requested page is lost (the two guard
  runs alone are composed in `RouteGuard.ServerThenClientReload`); `RouteGuard.SavedTokenAdmitsFirstNavigation` describes a first
  navigation that happens on the client, as it does with server-side
  rendering off.
- The guard is assumed to run before every navigation, as a global route
  middleware does. The file is named `auth.glocal.ts`; a Nuxt middleware runs
  on every route only when its name ends in `.global`, so as written it runs
  only on pages that name it, and no page is part of this model.
- AuthStore.Login: storage writes are assumed never to throw. A failing
  `localStorage.setItem` (quota exceeded, storage disabled) would make `login`
  rethrow with the token and user already installed and possibly only one key
  written; that path, and the storage incoherence it can leave, is not
  modelled.

=== FILE: app.dfy ===
/** The three parts run together in one client: the store, the route guard
    in front of every navigation and the reply interceptor. A run is a
    sequence of events applied one after another; interleavings inside a
    single operation are not modelled. */
module App {
  import opened Base
  import opened AuthStore
  import opened RouteGuard
  import opened SessionExpiry

  /** Everything one client holds: whether it runs in a browser, the store,
      storage, the interceptor's latch and the current route. */
  datatype System = System(client: bool, session: Session, storage: Storage, latch: Latch, location: string)

  /** What can happen to the client. */
  datatype Event =
    | Navigate(path: string)
    | SignIn(username: string, exchange: Exchange, users: UsersFetch)
    | SignOut
    | ApiReply(reply: Incoming)
    | AcknowledgeDialog

  /** A navigation passes the guard and lands on the redirect target, if
      any, or on the requested path. The router runs the guard again on a
      redirect target; that second run changes nothing. */
  function NavigateTo(sys: System, path: string): (r: System)
    ensures r.storage == sys.storage && r.latch == sys.latch && r.client == sys.client
    ensures var g := Guard(sys.session, sys.storage, sys.client, path);
      && r.session == g.session
      && r.location == (if g.redirect.Some? then g.redirect.value else path)
    ensures Decide(r.session.token, r.location).None?
    ensures IsAuthenticated(sys.session) ==> r.session == sys.session
    ensures Guard(r.session, r.storage, r.client, r.location) == GuardResult(r.session, None)
  {
    var g := Guard(sys.session, sys.storage, sys.client, path);
    RedirectSettles(g.session.token, path);
    LoadTokenIdempotent(sys.session, sys.storage, true);
    var landed := if g.redirect.Some? then g.redirect.value else path;
    sys.(session := g.session, location := landed)
  }

  /** One event. A failed sign-in leaves the system as it was; sign-out
      pushes the sign-in route through the guard; acknowledging the dialog
      reloads the page on the sign-in route with a fresh store. The
      interceptor is a client-only plugin, so without a window replies and
      acknowledgments change nothing. */
  function Step(sys: System, e: Event): (r: System)
    ensures r.client == sys.client
    ensures e.Navigate? ==> r == NavigateTo(sys, e.path)
    ensures !sys.client && (e.ApiReply? || e.AcknowledgeDialog?) ==> r == sys
    ensures e.SignIn? && !ExchangeSucceeds(e.exchange) ==> r == sys
    ensures e.SignIn? && ExchangeSucceeds(e.exchange) ==>
      && IsAuthenticated(r.session) == (e.exchange.accessToken.text != "")
      && r.session.user == Some(User(e.username, None))
      && r.latch == sys.latch && r.location == sys.location
    ensures e.SignOut? ==>
      && r.session == EmptySession && r.location == LoginPath && r.latch == sys.latch
      && (sys.client ==> r.storage == ClearedStorage)
    ensures e.ApiReply? ==>
      && r.session == sys.session && r.storage == sys.storage && r.location == sys.location
      && (sys.client && IsUnauthorized(e.reply) ==> r.latch.shown)
      && (!IsUnauthorized(e.reply) ==> r.latch == sys.latch)
    ensures e.AcknowledgeDialog? && !sys.latch.shown ==> r == sys
    ensures e.AcknowledgeDialog? && sys.client && sys.latch.shown ==>
      && r.session == EmptySession && r.storage == ClearedStorage
      && r.location == LoginPath && !r.latch.shown
  {
    match e
    case Navigate(path) => NavigateTo(sys, path)
    case SignIn(username, exchange, users) =>
      var r := Login(State(sys.session, sys.storage), sys.client, username, exchange, users);
      sys.(session := r.state.session, storage := r.state.storage)
    case SignOut =>
      var r := Logout(State(sys.session, sys.storage), sys.client);
      NavigateTo(sys.(session := r.state.session, storage := r.state.storage), r.navigateTo)
    case ApiReply(reply) =>
      if !sys.client then sys
      else sys.(latch := Intercept(sys.latch, reply).latch)
    case AcknowledgeDialog =>
      if !sys.client || !sys.latch.shown then sys
      else
        var a := Acknowledge(sys.latch, sys.storage);
        NavigateTo(sys.(session := EmptySession, storage := a.storage, latch := a.latch), a.navigateTo)
  }

  /** The system after every event of `es`, in order. */
  function Run(sys: System, es: seq<Event>): System
    decreases |es|
  {
    if |es| == 0 then sys else Run(Step(sys, es[0]), es[1..])
  }

  /** Storage holds both entries or neither. */
  predicate StorageCoherent(storage: Storage) {
    storage.authToken.Some? <==> storage.authUser.Some?
  }

  /** A store that counts as signed in knows its user. */
  predicate SessionCoherent(s: Session) {
    IsAuthenticated(s) ==> s.user.Some?
  }

  predicate Invariant(sys: System) {
    SessionCoherent(sys.session) && StorageCoherent(sys.storage)
  }

  /** Restoring from coherent storage keeps the store coherent. */
  lemma LoadTokenKeepsCoherence(s: Session, storage: Storage, hasWindow: bool)
    requires SessionCoherent(s) && StorageCoherent(storage)
    ensures SessionCoherent(LoadToken(s, storage, hasWindow))
  {
  }

  /** Every event keeps the invariant. */
  lemma StepKeepsInvariant(sys: System, e: Event)
    requires Invariant(sys)
    ensures Invariant(Step(sys, e))
  {
  }

  /** Every run from a coherent system stays coherent: in every reachable
      state a signed-in store has a user, and storage never holds one key
      without the other. */
  lemma {:induction false} RunKeepsInvariant(sys: System, es: seq<Event>)
    requires Invariant(sys)
    ensures Invariant(Run(sys, es))
    decreases |es|
  {
    if |es| > 0 {
      StepKeepsInvariant(sys, es[0]);
      RunKeepsInvariant(Step(sys, es[0]), es[1..]);
    }
  }

  /** A client as the page loads: an empty store and latch on some route,
      with whatever storage the browser kept. */
  predicate Fresh(sys: System) {
    sys.session == EmptySession && sys.latch == InitialLatch
  }

  /** The reachable-state property: from a fresh client whose storage was
      written only by this store, every run ends with a store that, when it
      counts as signed in, holds a user. */
  lemma SignedInImpliesUser(sys: System, es: seq<Event>)
    requires Fresh(sys) && StorageCoherent(sys.storage)
    ensures IsAuthenticated(Run(sys, es).session) ==> Run(sys, es).session.user.Some?
    ensures StorageCoherent(Run(sys, es).storage)
  {
    RunKeepsInvariant(sys, es);
  }

  /** Acknowledging an open dialog signs the client out completely and
      leaves it on the sign-in page with a latch ready for the next expiry. */
  lemma AcknowledgeSignsOut(sys: System)
    requires sys.client && sys.latch.shown
    ensures var r := Step(sys, AcknowledgeDialog);
      && !IsAuthenticated(r.session)
      && r.storage == ClearedStorage
      && r.location == LoginPath
      && !r.latch.shown
  {
  }
}

=== FILE: auth_store.dfy ===
/** The client-side session store: an in-memory token, user and users list,
    mirrored into a browser storage that holds two keys, `auth_token` and
    `auth_user`. Every operation is a pure transition; the network replies,
    the storage contents and whether a browser window exists are inputs. */
module AuthStore {
  import opened Base

  /** The signed-in user as the store keeps it; `login` only ever sets the name. */
  datatype User = User(username: string, email: Option<string>)

  /** One element of the users list, kept as the opaque value the server sent. */
  type Entry = string

  /** The store's in-memory state. */
  datatype Session = Session(token: Option<string>, user: Option<User>, usersList: seq<Entry>)

  /** The two storage entries, already decoded: `None` is a missing key. */
  datatype Storage = Storage(authToken: Option<string>, authUser: Option<User>)

  /** The state the store is created with. */
  const EmptySession: Session := Session(None, None, [])

  /** Storage with both keys removed. */
  const ClearedStorage: Storage := Storage(None, None)

  /** The store and its storage together. */
  datatype State = State(session: Session, storage: Storage)

  /** How the `access_token` field of the token reply reads: falsy (missing,
      `null`, `""`, `0`, `false`) or truthy, then carrying its `String(..)` form. */
  datatype TokenField = NoAccessToken | AccessToken(text: string)

  /** What the token exchange came to once `res.json()` settled. The HTTP
      status plays no part: the store never looks at it. */
  datatype Exchange =
    | ExchangeFailed            // the request was rejected or the body was not JSON
    | FalsyReply                // the body parsed to a falsy value such as `null`
    | Reply(accessToken: TokenField)

  /** What the users-list request came to. */
  datatype UsersFetch =
    | UsersNetworkError         // the request was rejected
    | UsersNotOk(status: int)   // a status outside 200-299
    | UsersBadBody              // an ok status whose body was not JSON
    | UsersOk(data: seq<Entry>)

  /** Why `login` threw. */
  datatype LoginError = ExchangeError | MissingAccessToken

  /** The state after `login`, and the error it threw, if any. */
  datatype LoginResult = LoginResult(state: State, thrown: Option<LoginError>)

  /** The state after `logout`, and the route it pushes. */
  datatype LogoutResult = LogoutResult(state: State, navigateTo: string)

  /** `isAuthenticated`: a computed flag over the token alone. */
  function IsAuthenticated(s: Session): (r: bool)
    ensures r <==> s.token.Some? && s.token.value != ""
  {
    Truthy(s.token)
  }

  /** True when the exchange gives `login` a token to install. */
  predicate ExchangeSucceeds(exchange: Exchange) {
    exchange.Reply? && exchange.accessToken.AccessToken?
  }

  /** `fetchUsersList`: only the users list may change, and only on an ok reply
      to a store that holds a token; every failure is swallowed. */
  function FetchUsersList(s: Session, users: UsersFetch): (r: Session)
    ensures r.token == s.token && r.user == s.user
    ensures !IsAuthenticated(s) ==> r == s
    ensures r.usersList != s.usersList ==> IsAuthenticated(s) && users.UsersOk? && r.usersList == users.data
    ensures IsAuthenticated(s) && users.UsersOk? ==> r.usersList == users.data
  {
    if !Truthy(s.token) then s
    else match users
      case UsersOk(data) => s.(usersList := data)
      case _ => s
  }

  /** `login`: a token exchange whose reply carries no truthy `access_token`
      throws before anything is written; otherwise the token and a name-only
      user are installed, written to storage when a window exists, and the
      users list is fetched. */
  function Login(st: State, hasWindow: bool, username: string, exchange: Exchange, users: UsersFetch): (r: LoginResult)
    ensures r.thrown.Some? <==> !ExchangeSucceeds(exchange)
    ensures exchange.ExchangeFailed? ==> r.thrown == Some(ExchangeError)
    ensures exchange.FalsyReply? || (exchange.Reply? && exchange.accessToken.NoAccessToken?) ==>
      r.thrown == Some(MissingAccessToken)
    ensures r.thrown.Some? ==> r.state == st
    ensures r.thrown.None? ==>
      && r.state.session.token == Some(exchange.accessToken.text)
      && r.state.session.user == Some(User(username, None))
    ensures r.thrown.None? && hasWindow ==>
      r.state.storage == Storage(r.state.session.token, r.state.session.user)
    ensures r.thrown.None? ==>
      r.state.session.usersList ==
        (if exchange.accessToken.text != "" && users.UsersOk? then users.data else st.session.usersList)
    ensures !hasWindow ==> r.state.storage == st.storage
  {
    match exchange
    case ExchangeFailed => LoginResult(st, Some(ExchangeError))
    case FalsyReply => LoginResult(st, Some(MissingAccessToken))
    case Reply(NoAccessToken) => LoginResult(st, Some(MissingAccessToken))
    case Reply(AccessToken(text)) =>
      var signedIn := st.session.(token := Some(text), user := Some(User(username, None)));
      var storage := if hasWindow then Storage(signedIn.token, signedIn.user) else st.storage;
      LoginResult(State(FetchUsersList(signedIn, users), storage), None)
  }

  /** `logout`: everything in memory is reset and, when a window exists, both
      storage keys are removed; the route pushed is the sign-in page. */
  function Logout(st: State, hasWindow: bool): (r: LogoutResult)
    ensures r.state.session == EmptySession
    ensures !IsAuthenticated(r.state.session)
    ensures hasWindow ==> r.state.storage == ClearedStorage
    ensures !hasWindow ==> r.state.storage == st.storage
    ensures r.navigateTo == LoginPath
  {
    var storage := if hasWindow then ClearedStorage else st.storage;
    LogoutResult(State(EmptySession, storage), LoginPath)
  }

  /** `loadToken`: without a window nothing happens; otherwise each field is
      overwritten from storage only when its saved entry is present, and the
      token only when the saved string is non-empty. */
  function LoadToken(s: Session, storage: Storage, hasWindow: bool): (r: Session)
    ensures !hasWindow ==> r == s
    ensures r.usersList == s.usersList
    ensures hasWindow && Truthy(storage.authToken) ==> r.token == storage.authToken
    ensures !(hasWindow && Truthy(storage.authToken)) ==> r.token == s.token
    ensures hasWindow && storage.authUser.Some? ==> r.user == storage.authUser
    ensures !(hasWindow && storage.authUser.Some?) ==> r.user == s.user
  {
    if !hasWindow then s
    else
      var withToken := if Truthy(storage.authToken) then s.(token := storage.authToken) else s;
      if storage.authUser.Some? then withToken.(user := storage.authUser) else withToken
  }

  /** A users-list failure cannot fail `login`: whatever the users request
      came to, the outcome, token, user and storage are the same. */
  lemma LoginIndependentOfUsersFetch(st: State, hasWindow: bool, username: string, exchange: Exchange, u1: UsersFetch, u2: UsersFetch)
    ensures Login(st, hasWindow, username, exchange, u1).thrown == Login(st, hasWindow, username, exchange, u2).thrown
    ensures Login(st, hasWindow, username, exchange, u1).state.storage == Login(st, hasWindow, username, exchange, u2).state.storage
    ensures Login(st, hasWindow, username, exchange, u1).state.session.token == Login(st, hasWindow, username, exchange, u2).state.session.token
    ensures Login(st, hasWindow, username, exchange, u1).state.session.user == Login(st, hasWindow, username, exchange, u2).state.session.user
  {
  }

  /** `logout` applied twice ends where `logout` applied once does. */
  lemma LogoutIdempotent(st: State, hasWindow: bool)
    ensures Logout(Logout(st, hasWindow).state, hasWindow) == Logout(st, hasWindow)
  {
  }

  /** Restoring from the same storage a second time changes nothing more. */
  lemma LoadTokenIdempotent(s: Session, storage: Storage, hasWindow: bool)
    ensures LoadToken(LoadToken(s, storage, hasWindow), storage, hasWindow) == LoadToken(s, storage, hasWindow)
  {
  }

  /** Storage round trip: what a successful `login` with a window writes,
      `loadToken` reads back into a fresh store, token and user alike. */
  lemma LoginThenLoadTokenRestores(st: State, username: string, exchange: Exchange, users: UsersFetch)
    requires ExchangeSucceeds(exchange) && exchange.accessToken.text != ""
    ensures var after := Login(st, true, username, exchange, users).state;
      var restored := LoadToken(EmptySession, after.storage, true);
      && restored.token == after.session.token
      && restored.user == after.session.user
      && IsAuthenticated(restored)
  {
  }

  /** The round trip's one gap: a token whose string form is empty is written
      to storage but, being falsy, never read back. Whether the store counts
      as signed in still agrees on both sides. */
  lemma EmptyTokenIsNotRestored(st: State, username: string, users: UsersFetch)
    ensures var after := Login(st, true, username, Reply(AccessToken("")), users).state;
      var restored := LoadToken(EmptySession, after.storage, true);
      && after.session.token == Some("")
      && restored.token == None
      && restored.user == after.session.user
      && IsAuthenticated(restored) == IsAuthenticated(after.session)
  {
  }
}

=== FILE: base.dfy ===
/** Values shared by every part of the session model: JavaScript's nullable
    strings with their truthiness, and the two route paths the client knows. */
module Base {

  /** A value that may be `null` (or `undefined`) on the JavaScript side. */
  datatype Option<+T> = None | Some(value: T)

  /** `!!v` for a `string | null`: both `null` and the empty string are falsy. */
  predicate Truthy(v: Option<string>) {
    v.Some? && v.value != ""
  }

  /** The sign-in page, where unauthenticated navigation is sent. */
  const LoginPath: string := "/login"

  /** The home page, where an authenticated visit to the sign-in page is sent. */
  const DashboardPath: string := "/dashboard"
}

=== FILE: route_guard.dfy ===
/** The route guard, assumed to run before every navigation: on the client,
    a store without a token is first restored from storage, then the target
    path is checked against the token. */
module RouteGuard {
  import opened Base
  import opened AuthStore

  /** The guard's verdict after any restore: `None` lets the navigation
      through, `Some(p)` redirects to `p`. */
  function Decide(token: Option<string>, path: string): (r: Option<string>)
    ensures r == Some(LoginPath) <==> !Truthy(token) && path != LoginPath
    ensures r == Some(DashboardPath) <==> Truthy(token) && path == LoginPath
    ensures r.None? <==> (Truthy(token) <==> path != LoginPath)
    ensures r.Some? ==> r.value != path
  {
    if !Truthy(token) && path != LoginPath then Some(LoginPath)
    else if Truthy(token) && path == LoginPath then Some(DashboardPath)
    else None
  }

  /** What one run of the guard leaves behind: the possibly restored store
      and the redirect it returned. */
  datatype GuardResult = GuardResult(session: Session, redirect: Option<string>)

  /** The whole guard: the conditional `loadToken`, then the decision made on
      the token as it stands after the restore. Storage is only read. */
  function Guard(s: Session, storage: Storage, client: bool, path: string): (r: GuardResult)
    ensures client && !IsAuthenticated(s) ==> r.session == LoadToken(s, storage, true)
    ensures !client || IsAuthenticated(s) ==> r.session == s
    ensures r.redirect == Decide(r.session.token, path)
  {
    var restored := if client && !Truthy(s.token) then LoadToken(s, storage, true) else s;
    GuardResult(restored, Decide(restored.token, path))
  }

  /** Following a redirect never leads to a second one: the target page is
      one the same token lets through. */
  lemma RedirectSettles(token: Option<string>, path: string)
    ensures Decide(token, path).Some? ==> Decide(token, Decide(token, path).value).None?
  {
  }

  /** The guard never replaces a token the store already holds, and never
      touches anything but the restored fields. */
  lemma GuardKeepsExistingToken(s: Session, storage: Storage, client: bool, path: string)
    requires IsAuthenticated(s)
    ensures Guard(s, storage, client, path).session == s
    ensures Guard(s, storage, client, path).redirect.None? <==> path != LoginPath
  {
  }

  /** Restore happens before the decision: when the first navigation of a
      fresh page runs on the client (server-side rendering off), a saved
      token is installed and lets a protected path through. */
  lemma SavedTokenAdmitsFirstNavigation(storage: Storage, path: string)
    requires Truthy(storage.authToken)
    ensures Guard(EmptySession, storage, true, path).session.token == storage.authToken
    ensures Guard(EmptySession, storage, true, path).redirect.None? <==> path != LoginPath
  {
  }

  /** Without a window no restore takes place, so a fresh store is sent to
      the sign-in page whatever storage holds. */
  lemma ServerSideIgnoresStorage(storage: Storage, path: string)
    requires path != LoginPath
    ensures Guard(EmptySession, storage, false, path).redirect == Some(LoginPath)
  {
  }

  /** A reload with server-side rendering: the guard runs first on the
      server, which cannot read storage and redirects a protected path to
      the sign-in page, then on the client at that page, where the saved
      token is restored and the visit is sent on to the home page. The
      requested path is not reached. */
  lemma ServerThenClientReload(storage: Storage, path: string)
    requires Truthy(storage.authToken) && path != LoginPath
    ensures var server := Guard(EmptySession, storage, false, path);
      && server.redirect == Some(LoginPath)
      && Guard(EmptySession, storage, true, server.redirect.value).redirect == Some(DashboardPath)
  {
  }
}

=== FILE: session_expiry.dfy ===
/** The client plugin that watches every API reply: an unauthorized reply,
    signalled either in a successful payload or by an HTTP status, opens a
    session-expired dialog at most once until the user acknowledges it. */
module SessionExpiry {
  import opened Base
  import opened AuthStore

  /** The status code both unauthorized signals carry. */
  const Unauthorized: int := 401

  /** The plugin's state: the `isSessionExpiredShow` latch, and how many
      dialogs it has opened so far (each one an alert the user sees). */
  datatype Latch = Latch(shown: bool, dialogs: nat)

  /** The latch as the plugin starts. */
  const InitialLatch: Latch := Latch(false, 0)

  /** `response.data` of a successful reply: falsy, or a value whose `code`
      field is a number (`Some`) or anything else (`None`). */
  datatype Payload = NoData | Data(code: Option<int>)

  /** A reply that reached the success handler. */
  datatype Response = Response(status: int, data: Payload)

  /** A failed request, with the reply it got if any. */
  datatype HttpError = HttpError(response: Option<ErrorReply>)
  datatype ErrorReply = ErrorReply(status: int)

  /** Anything the interceptor is handed. */
  datatype Incoming = Succeeded(response: Response) | Failed(error: HttpError)

  /** Why a promise the interceptor returns is rejected. */
  datatype Reason = SessionExpiredError | Propagated(error: HttpError)

  /** How the interceptor settles the request's promise. */
  datatype Settled = Resolved(response: Response) | Rejected(reason: Reason)

  /** Case A: a successful reply whose payload says `code === 401`. */
  predicate UnauthorizedPayload(response: Response) {
    response.data.Data? && response.data.code == Some(Unauthorized)
  }

  /** Case B: an error whose reply has HTTP status 401. */
  predicate UnauthorizedStatus(error: HttpError) {
    error.response.Some? && error.response.value.status == Unauthorized
  }

  /** Either unauthorized signal. */
  predicate IsUnauthorized(x: Incoming) {
    match x
    case Succeeded(response) => UnauthorizedPayload(response)
    case Failed(error) => UnauthorizedStatus(error)
  }

  /** `handleSessionExpired`: a set latch swallows the trigger; a clear one
      is set and one more dialog opens. */
  function HandleSessionExpired(l: Latch): (r: Latch)
    ensures r.shown
    ensures l.shown ==> r == l
    ensures !l.shown ==> r.dialogs == l.dialogs + 1
  {
    if l.shown then l else Latch(true, l.dialogs + 1)
  }

  /** What the interceptor returns: the latch afterwards and the settled promise. */
  datatype Intercepted = Intercepted(latch: Latch, settled: Settled)

  /** The success handler: an unauthorized payload triggers the handler and
      is turned into a rejection; any other reply passes through unchanged. */
  function OnResponse(l: Latch, response: Response): (r: Intercepted)
    ensures UnauthorizedPayload(response) ==>
      r.settled == Rejected(SessionExpiredError) && r.latch == HandleSessionExpired(l)
    ensures !UnauthorizedPayload(response) ==> r.settled == Resolved(response) && r.latch == l
  {
    if UnauthorizedPayload(response) then
      Intercepted(HandleSessionExpired(l), Rejected(SessionExpiredError))
    else
      Intercepted(l, Resolved(response))
  }

  /** The error handler: a 401 reply triggers the handler; every error is
      rejected again as it came, triggered or not. */
  function OnError(l: Latch, error: HttpError): (r: Intercepted)
    ensures r.settled == Rejected(Propagated(error))
    ensures UnauthorizedStatus(error) ==> r.latch == HandleSessionExpired(l)
    ensures !UnauthorizedStatus(error) ==> r.latch == l
  {
    var latch := if UnauthorizedStatus(error) then HandleSessionExpired(l) else l;
    Intercepted(latch, Rejected(Propagated(error)))
  }

  /** Both handlers behind one entry point. */
  function Intercept(l: Latch, x: Incoming): (r: Intercepted)
    ensures IsUnauthorized(x) ==> r.latch == HandleSessionExpired(l) && r.settled.Rejected?
    ensures !IsUnauthorized(x) ==> r.latch == l
    ensures x.Failed? ==> r.settled == Rejected(Propagated(x.error))
    ensures x.Succeeded? && IsUnauthorized(x) ==> r.settled == Rejected(SessionExpiredError)
    ensures x.Succeeded? && !IsUnauthorized(x) ==> r.settled == Resolved(x.response)
  {
    match x
    case Succeeded(response) => OnResponse(l, response)
    case Failed(error) => OnError(l, error)
  }

  /** The latch after the interceptor has seen every reply in `xs`, in order. */
  function InterceptAll(l: Latch, xs: seq<Incoming>): (r: Latch)
    decreases |xs|
  {
    if |xs| == 0 then l else InterceptAll(Intercept(l, xs[0]).latch, xs[1..])
  }

  /** True when some reply in `xs` is unauthorized. */
  predicate AnyUnauthorized(xs: seq<Incoming>) {
    exists i :: 0 <= i < |xs| && IsUnauthorized(xs[i])
  }

  /** While the dialog is open, no reply changes the latch. */
  lemma {:induction false} ShownLatchIgnoresReplies(l: Latch, xs: seq<Incoming>)
    requires l.shown
    ensures InterceptAll(l, xs) == l
    decreases |xs|
  {
    if |xs| > 0 {
      ShownLatchIgnoresReplies(Intercept(l, xs[0]).latch, xs[1..]);
    }
  }

  /** De-duplication: from a clear latch, any run of replies opens exactly
      one dialog if it holds at least one unauthorized reply and none
      otherwise, and leaves the latch set exactly in the first case. */
  lemma {:induction false} OneDialogPerBurst(l: Latch, xs: seq<Incoming>)
    requires !l.shown
    ensures InterceptAll(l, xs).dialogs == l.dialogs + (if AnyUnauthorized(xs) then 1 else 0)
    ensures InterceptAll(l, xs).shown <==> AnyUnauthorized(xs)
    decreases |xs|
  {
    if |xs| > 0 {
      var next := Intercept(l, xs[0]).latch;
      if IsUnauthorized(xs[0]) {
        assert AnyUnauthorized(xs);
        ShownLatchIgnoresReplies(next, xs[1..]);
      } else {
        OneDialogPerBurst(next, xs[1..]);
        if AnyUnauthorized(xs) {
          var i :| 0 <= i < |xs| && IsUnauthorized(xs[i]);
          assert xs[1..][i - 1] == xs[i];
        }
        if AnyUnauthorized(xs[1..]) {
          var i :| 0 <= i < |xs[1..]| && IsUnauthorized(xs[1..][i]);
          assert xs[i + 1] == xs[1..][i];
        }
      }
    }
  }

  /** What acknowledging the dialog does: the latch afterwards, storage
      afterwards, and the page the browser is sent to with a full reload. */
  datatype Acknowledged = Acknowledged(latch: Latch, storage: Storage, navigateTo: string)

  /** The dialog's callback: both storage keys are removed, the latch is
      cleared for reuse and the browser is sent to the sign-in page. The
      in-memory store is not touched here; the reload discards it. */
  function Acknowledge(l: Latch, storage: Storage): (r: Acknowledged)
    ensures r.storage == ClearedStorage
    ensures !r.latch.shown && r.latch.dialogs == l.dialogs
    ensures r.navigateTo == LoginPath
  {
    Acknowledged(Latch(false, l.dialogs), ClearedStorage, LoginPath)
  }

  /** The latch is reusable: after an acknowledgment the next unauthorized
      reply opens a new dialog. */
  lemma NextTriggerAfterAcknowledgeOpensDialog(l: Latch, storage: Storage, x: Incoming)
    requires IsUnauthorized(x)
    ensures Intercept(Acknowledge(l, storage).latch, x).latch == Latch(true, l.dialogs + 1)
  {
  }
}
